=== FILE: README.md ===
# gitlabctl environment-drift report, modelled in Dafny

`gitlabctl get <resource> [-n <namespace>]` lists the projects of a GitLab
namespace and their environments. For each environment it shows which commit is
deployed, by whom and how long ago. It colours a project's rows green when all
of its deployed environments run the same commit, and red when they drift apart.

This project models the data transformation in `src/main.rs` as pure functions
over immutable datatypes. The GitLab API answers are inputs:

- the project listing is an `Option<seq<Project>>`, where `None` is a failed call;
- the environment listing of a project is a function `ProjectId -> Option<seq<Environment>>`;
- the per-environment detail call is a function `(ProjectId, EnvironmentId) -> Option<Environment>`;
- the "updated" label is produced by `humanize: string -> string`. This function
  stands for parsing the RFC 3339 timestamp and wording its distance from now.

Modules, in pipeline order:

- `Wrappers`: `Option`.
- `Seqs`: order-preserving `Filter`, `Map`, `Flatten`, and `Dedup`. `Dedup` has
  the semantics of Rust's `Vec::dedup`: it removes consecutive duplicates only.
- `Text`: ASCII upper-casing, decimal rendering of integers, and space padding.
- `Gitlab`: the API entities (`Project`, `User`, `Deployment`, `Environment`).
- `Projects`: the namespace filter and the environment listing.
- `Rows`: the detail fetch, the row cells, and dropping rows without a commit.
- `Drift`: per-project green/red colouring and concatenation in project order.
- `Table`: column widths, line layout, and the "nothing to show" case.
- `Report`: the whole run composed from the stages above.
- `Scenarios`: concrete examples of colouring, layout and namespace matching.

Strings are `seq<char>` and are assumed to be ASCII. The program measures cells
with `.len()`, which counts bytes, but pads by characters. The two counts agree
only for ASCII.

Two points about how the code decides colours:

- Rows are coloured per entry of the outer per-project vector
  (src/main.rs:74-76), not per run of rows that share a project name. Two
  listed projects with the same name are coloured independently, even when
  adjacent. `Drift.EnvironmentDetails` does the same.
- Green is decided by `dedup()` then `len() == 1` (src/main.rs:117-119).
  `Drift.GroupColourDistinctCommits` proves this is the same as showing exactly
  one distinct commit.

## Model

| member | source | states |
|---|---|---|
| Projects.ForNamespace | src/main.rs:15-33 | a failed project listing selects nothing; an empty filter selects every listed project, in listing order; the selection is never longer than the listing |
| Projects.InNamespace | src/main.rs:22-24 | a project is selected iff the filter is empty or its namespace name equals the filter up to the case of ASCII letters |
| Projects.ForNamespaceSelects | src/main.rs:21-26 | a project passing the namespace test is selected, at the position given by the number of selected projects listed before it, and selected projects keep their listing order |
| Projects.ForNamespaceOnlySelected | src/main.rs:22-25 | the selected entry at position k is the name and id of the listed project that passes the namespace test and has exactly k selected projects listed before it, so no project is selected twice and nothing else is selected |
| Text.Upper | src/main.rs:23 | upper-casing keeps the length, leaves no lower-case ASCII letter, and leaves every character that is not a lower-case ASCII letter unchanged |
| Text.UpperIgnoresCase | src/main.rs:23 | two names compare equal iff they have the same length and agree at every position up to the case of an ASCII letter |
| Projects.EnvironmentsOfProject | src/main.rs:35-47 | one entry per listed environment, in order, each tagged with the project's name and id; a failed listing gives no entries |
| Projects.AllEnvironments | src/main.rs:49-67 | one environment list per selected project, in project order, and an empty list for a project whose listing failed |
| Rows.ResolveGroup | src/main.rs:77-83 | the details of a project's environments are fetched in order; the result exists iff every fetch succeeds and then holds each fetched environment under its project's name |
| Rows.ResolveAll | src/main.rs:74-83 | the nested details exist iff every project's fetches succeed (one failed call aborts everything), keeping the per-project nesting |
| Rows.ResolveAllFails | src/main.rs:74-83 | the detail stage fails iff the fetch of some listed environment of some selected project fails |
| Rows.DeploymentLabel | src/main.rs:85-91 | the deployment label is empty exactly when the environment has no last deployment |
| Rows.DeploymentLabelRoundTrip | src/main.rs:85-91 | the label "<iid> by <username>" can be split back into the deployment's iid and username |
| Text.DecimalRoundTrip | src/main.rs:89 | the decimal text of the iid reads back as the same number |
| Text.DecimalInjective | src/main.rs:89 | different iids get different decimal texts |
| Rows.CommitCell | src/main.rs:92-95 | the commit cell is the short id when there is a deployment whose commit has one, and empty otherwise |
| Rows.UpdatedCell | src/main.rs:96-101 | the "updated" cell is empty without a deployment, and otherwise the humanized creation time |
| Rows.BuildRow | src/main.rs:85-109 | a row carries its project's name and the fetched environment's name, the deployment label, the commit cell and the updated cell of the environment's last deployment; the label reads back as the deployment's iid and user; a never-deployed environment has empty deployment, commit and updated cells; the commit cell is non-empty iff the environment has a commit |
| Rows.KeptRows | src/main.rs:112-116 | no kept row has an empty commit, and no more rows are kept than environments exist |
| Rows.KeptRowsAreCommitted | src/main.rs:77-116 | the kept rows are exactly the rows of the environments with a non-empty commit, in environment order |
| Rows.KeptRowPlacement | src/main.rs:112-116 | an environment with a commit contributes its row, placed after the rows of the committed environments listed before it |
| Rows.KeptRowsStable | src/main.rs:112-114 | filtering the kept rows again for a non-empty commit changes nothing |
| Seqs.Dedup | src/main.rs:118 | removing consecutive duplicates never lengthens the list, empties only the empty list, keeps the first element, and leaves no two equal neighbours |
| Seqs.DedupAppend | src/main.rs:118 | where two lists meet on different elements, deduplicating the joined list deduplicates each part separately, so equal elements that are not neighbours both stay |
| Seqs.DedupSingleton | src/main.rs:117-119 | removing consecutive duplicate commits leaves exactly one iff the list is non-empty and all its commits are equal |
| Seqs.DedupSingletonIffOneDistinct | src/main.rs:117-119 | removing consecutive duplicates leaves exactly one element iff the list holds exactly one distinct value |
| Drift.GroupColour | src/main.rs:117-119 | a project's colour is green iff it has a kept row and all its kept rows show the same commit |
| Drift.GroupColourDistinctCommits | src/main.rs:117-129 | a project's rows are green iff they show exactly one distinct commit |
| Drift.SingleRowIsGreen | src/main.rs:119-123 | a project with a single kept row is green |
| Drift.EmptyGroupIsRed | src/main.rs:119-129 | a project with no kept rows gets the red colour, which is never printed because there are no rows |
| Drift.DifferentCommitsAreRed | src/main.rs:124-128 | two rows of one project showing different commits make the project red, wherever they sit |
| Drift.DuplicateCommitStaysGreen | src/main.rs:117-123 | adding rows with the project's common commit keeps a green project green |
| Drift.ColourGroup | src/main.rs:117-129 | every row of a project is kept, in order, and all get one colour, which is green iff all commits are equal and there is a row |
| Drift.EnvironmentDetails | src/main.rs:74-131 | no output row has an empty commit |
| Drift.EnvironmentDetailsLength | src/main.rs:74-131 | the output has exactly one row per environment with a non-empty commit |
| Drift.EnvironmentDetailsSplit | src/main.rs:74-76 | the output for a list of projects is the outputs for its parts laid end to end, so no row moves to another project and no colour depends on another project |
| Drift.EnvironmentDetailsOneProject | src/main.rs:117-131 | a project's part of the output is its kept rows, in order, all in the project's colour |
| Table.FloorsAreHeaderLengths | src/main.rs:175-186 | the minimum widths 7, 11, 10, 6 and 7 are the lengths of the five headers |
| Table.ColumnWidth | src/main.rs:175-179 | a column's width is at least its minimum and at least every cell's length |
| Table.Widths | src/main.rs:175-179 | each of the five widths is at least its header's length and at least the length of every cell in its column |
| Table.ColumnWidthIsTight | src/main.rs:175-179 | a column's width is its minimum or the length of one of its cells, so it is the larger of the minimum and the longest cell |
| Table.LongestAttained | src/main.rs:175-179 | the longest cell length is the length of an actual cell |
| Text.Pad | src/main.rs:180-181 | a padded cell starts with the cell, is filled with spaces, and is as long as the larger of the cell and the width, so a cell is never cut |
| Table.FormatLine | src/main.rs:180-181 | a line whose cells fit their widths is as long as the widths plus two separator spaces between consecutive columns |
| Table.FormatLineColumn | src/main.rs:180-206 | each column of a line holds its cell left-aligned, padded with spaces to the column width, followed by the two-space separator unless it is the last column |
| Table.Render | src/main.rs:171-207 | no rows print only "There is nothing to show"; otherwise a plain header then one line per row in the row's colour, all lines of length sum of widths plus 8 |
| Table.RenderHeader | src/main.rs:180-192 | each header stands left-aligned at its column's start in the header line |
| Table.RenderRow | src/main.rs:193-206 | each cell of a row stands left-aligned at its column's start, below its header |
| Report.Run | src/main.rs:159-208 | the run completes iff every listed environment of every selected project is fetched; a completed run prints a plain first line, coloured lines after it, one line more than there are environments with a commit, and exactly the message line when no environment has a commit |
| Report.NoCommitShowsMessage | src/main.rs:112-174 | when every fetched environment shows an empty commit (never deployed, or deployed without a commit short id), a completed run prints only the message |
| Report.NoProjectShowsMessage | src/main.rs:171-174 | when no project matches the namespace, the run prints only the message |
| Report.FailedFetchAborts | src/main.rs:81-83 | a failed detail fetch for any listed environment of a selected project aborts the run |
| Scenarios.SameCommitIsGreen | src/main.rs:117-123 | two environments on commit abc123 are both green, and the environment column is 11 wide |
| Scenarios.DifferentCommitsAreBothRed | src/main.rs:124-128 | environments on abc123 and def456 are both red |
| Scenarios.PaymentsNamespace | src/main.rs:22-24 | the filter "payments" selects namespace "Payments" but not "payments-legacy" |

## Left out

- src/config.rs (home directory lookup, file read, TOML parsing) is I/O and is not part of this model.
- Command-line parsing with clap, the `resource` argument (never dispatched on), and the "Why don't you try the get command?" branch are left out as CLI glue.
- A failure of `Gitlab::new` is left out: it is a connection error before the pipeline starts.
- The GitLab HTTP calls are left out; their answers are inputs, as described above.
- rayon's `par_iter` is left out; its ordered `collect` appears only as order preservation.
- The `Instant` timings and the "Retrieved ..." progress lines are left out because they are observability output.
- ANSI escape codes from `colored` are left out; a line carries only a `Plain`, `Green` or `Red` tag.
- Rows.UpdatedCell: does not model the panic on a timestamp that is not valid RFC 3339 (src/main.rs:99). It also does not model sampling the clock separately for each row (src/main.rs:96). `humanize` is an opaque total function.
- Text.Upper: models `to_uppercase` on ASCII letters only; Unicode case mapping, which can change a string's length, is left out.
- Table.ColumnWidth: widths count characters; the program counts bytes, which differ from characters only outside ASCII.

=== FILE: drift.dfy ===
/**
 Drift colouring: every project's kept rows are coloured together, green when
 they all show the same commit and red otherwise, and the projects' rows are
 then laid end to end in project order.
 */
module Drift {
  import opened Seqs
  import opened Rows

  datatype Colour = Green | Red

  datatype ColouredRow = ColouredRow(colour: Colour, row: Row)

  function CommitOf(r: Row): string
  {
    r.commit
  }

  function Commits(rows: seq<Row>): (cs: seq<string>)
    ensures |cs| == |rows|
    ensures forall i :: 0 <= i < |rows| ==> cs[i] == rows[i].commit
  {
    Map(rows, CommitOf)
  }

  /** The colour of a project's rows: green when removing consecutive duplicate
      commits leaves exactly one, red otherwise. */
  function GroupColour(rows: seq<Row>): (c: Colour)
    ensures c == Green <==> |rows| > 0 && forall i :: 0 <= i < |rows| ==> rows[i].commit == rows[0].commit
  {
    var cs := Commits(rows);
    DedupSingleton(cs);
    assert |rows| > 0 ==> (AllEqual(cs) <==> forall i :: 0 <= i < |rows| ==> rows[i].commit == rows[0].commit);
    if |Dedup(cs)| == 1 then Green else Red
  }

  /** Green exactly when the group shows one distinct commit. */
  lemma GroupColourDistinctCommits(rows: seq<Row>)
    ensures GroupColour(rows) == Green <==> |set i | 0 <= i < |rows| :: rows[i].commit| == 1
  {
    var cs := Commits(rows);
    DedupSingletonIffOneDistinct(cs);
    assert (set x | x in cs) == (set i | 0 <= i < |rows| :: rows[i].commit) by {
      forall x | x in cs
        ensures x in (set i | 0 <= i < |rows| :: rows[i].commit)
      {
        var i :| 0 <= i < |cs| && cs[i] == x;
        assert rows[i].commit == x;
      }
    }
  }

  lemma SingleRowIsGreen(r: Row)
    ensures GroupColour([r]) == Green
  {
  }

  lemma EmptyGroupIsRed()
    ensures GroupColour([]) == Red
  {
  }

  /** Two rows showing different commits make the group red, wherever they sit. */
  lemma DifferentCommitsAreRed(rows: seq<Row>, i: int, j: int)
    requires 0 <= i < |rows| && 0 <= j < |rows| && rows[i].commit != rows[j].commit
    ensures GroupColour(rows) == Red
  {
  }

  /** Adding rows with the group's common commit keeps a green group green. */
  lemma DuplicateCommitStaysGreen(rows: seq<Row>, extra: seq<Row>)
    requires GroupColour(rows) == Green
    requires forall k :: 0 <= k < |extra| ==> extra[k].commit == rows[0].commit
    ensures GroupColour(rows + extra) == Green
  {
  }

  /** Every row of a group, in order, tagged with the group's colour. */
  function ColourGroup(rows: seq<Row>): (r: seq<ColouredRow>)
    ensures |r| == |rows|
    ensures forall i :: 0 <= i < |rows| ==> r[i].row == rows[i]
    ensures forall i, j :: 0 <= i < |r| && 0 <= j < |r| ==> r[i].colour == r[j].colour
    ensures forall i :: 0 <= i < |r| ==>
      (r[i].colour == Green <==> forall j :: 0 <= j < |rows| ==> rows[j].commit == rows[0].commit)
  {
    var c := GroupColour(rows);
    seq(|rows|, i requires 0 <= i < |rows| => ColouredRow(c, rows[i]))
  }

  function ProjectRows(humanize: string -> string): seq<Resolved> -> seq<ColouredRow>
  {
    group => ColourGroup(KeptRows(group, humanize))
  }

  /** The report's rows: per project, the kept rows coloured by that project's
      commits, projects in order. A group is one entry of the outer sequence, so
      two entries with the same project name are coloured separately. */
  function EnvironmentDetails(all: seq<seq<Resolved>>, humanize: string -> string): (r: seq<ColouredRow>)
    ensures forall k :: 0 <= k < |r| ==> r[k].row.commit != []
  {
    var groups := Map(all, ProjectRows(humanize));
    FlattenAll(groups, Committed);
    Flatten(groups)
  }

  predicate Committed(c: ColouredRow)
  {
    RowHasCommit(c.row)
  }

  function CommittedCount(all: seq<seq<Resolved>>): nat
  {
    if |all| == 0 then 0 else |Filter(all[0], HasCommit)| + CommittedCount(all[1..])
  }

  /** Exactly one output row per environment that has a commit. */
  lemma {:induction false} EnvironmentDetailsLength(all: seq<seq<Resolved>>, humanize: string -> string)
    ensures |EnvironmentDetails(all, humanize)| == CommittedCount(all)
  {
    if |all| > 0 {
      EnvironmentDetailsSplit([all[0]], all[1..], humanize);
      assert all == [all[0]] + all[1..];
      EnvironmentDetailsLength(all[1..], humanize);
      KeptRowsAreCommitted(all[0], humanize);
      EnvironmentDetailsOneProject(all[0], humanize);
    }
  }

  /** The report of several projects is the reports of the projects laid end to
      end: no row moves to another project, and no project's colour depends on
      another project's rows. */
  lemma EnvironmentDetailsSplit(a: seq<seq<Resolved>>, b: seq<seq<Resolved>>, humanize: string -> string)
    ensures EnvironmentDetails(a + b, humanize) == EnvironmentDetails(a, humanize) + EnvironmentDetails(b, humanize)
  {
    MapAppend(a, b, ProjectRows(humanize));
    FlattenAppend(Map(a, ProjectRows(humanize)), Map(b, ProjectRows(humanize)));
  }

  /** The rows of one project are its kept rows, in order, all in its colour. */
  lemma EnvironmentDetailsOneProject(group: seq<Resolved>, humanize: string -> string)
    ensures |EnvironmentDetails([group], humanize)| == |KeptRows(group, humanize)|
    ensures forall k :: 0 <= k < |KeptRows(group, humanize)| ==>
      EnvironmentDetails([group], humanize)[k] == ColouredRow(GroupColour(KeptRows(group, humanize)), KeptRows(group, humanize)[k])
  {
    var m := Map([group], ProjectRows(humanize));
    assert m[1..] == [];
    assert Flatten(m) == m[0] + [];
  }
}

=== FILE: gitlab.dfy ===
/**
 The platform entities the report reads, reduced to the fields it uses. They are
 the results of the GitLab API calls, which the model receives as inputs.
 */
module Gitlab {
  import opened Wrappers

  type ProjectId = nat
  type EnvironmentId = nat

  /** A project and the name of the namespace (group or user) it lives in. */
  datatype Project = Project(id: ProjectId, name: string, namespaceName: string)

  datatype User = User(username: string)

  /** A deployment: its per-project sequence number `iid`, who ran it, the short
      commit id of the deployed job's commit when the platform reports one, and
      its creation timestamp as the RFC 3339 text the platform sends. */
  datatype Deployment = Deployment(iid: nat, user: User, commitShortId: Option<string>, createdAt: string)

  /** An environment. The listing endpoint leaves `lastDeployment` empty; the
      per-environment endpoint fills it in when the environment was ever deployed. */
  datatype Environment = Environment(id: EnvironmentId, name: string, lastDeployment: Option<Deployment>)
}

=== FILE: projects.dfy ===
/**
 The first two stages of the report: choosing the projects of one namespace, and
 listing the environments of every chosen project.
 */
module Projects {
  import opened Wrappers
  import opened Seqs
  import opened Text
  import opened Gitlab

  /** What the first stage hands on: a project's name and id. */
  datatype ProjectRef = ProjectRef(name: string, id: ProjectId)

  /** An environment from the listing, tagged with the project it belongs to. */
  datatype EnvEntry = EnvEntry(projectName: string, projectId: ProjectId, env: Environment)

  function RefOf(p: Project): ProjectRef
  {
    ProjectRef(p.name, p.id)
  }

  /** The selection test: an empty filter selects everything; otherwise the
      namespace name must equal the filter once both are upper-cased. */
  function InNamespace(filter: string, p: Project): (selected: bool)
    ensures selected <==> filter == [] || SameUpToCase(p.namespaceName, filter)
  {
    UpperIgnoresCase(p.namespaceName, filter);
    filter == [] || Upper(p.namespaceName) == Upper(filter)
  }

  function NamespaceTest(filter: string): Project -> bool
  {
    p => InNamespace(filter, p)
  }

  lemma EmptyFilterSelectsAll(ps: seq<Project>)
    ensures Filter(ps, NamespaceTest([])) == ps
  {
    FilterKeepsAll(ps, NamespaceTest([]));
  }

  /** The projects of namespace `filter`, as name/id pairs in listing order. A
      failed listing call (`None`) counts as an empty listing. */
  function ForNamespace(listed: Option<seq<Project>>, filter: string): (r: seq<ProjectRef>)
    ensures listed.None? ==> r == []
    ensures |r| <= |listed.GetOr([])|
    ensures filter == [] ==> |r| == |listed.GetOr([])|
    ensures filter == [] ==> forall i :: 0 <= i < |r| ==> r[i] == RefOf(listed.value[i])
  {
    var all := listed.GetOr([]);
    EmptyFilterSelectsAll(all);
    Map(Filter(all, NamespaceTest(filter)), RefOf)
  }

  /** A project lands in the selection exactly when it passes the namespace test,
      at the position given by the number of selected projects listed before it,
      and selected projects stay in listing order. */
  lemma ForNamespaceSelects(ps: seq<Project>, filter: string, i: int)
    requires 0 <= i < |ps| && InNamespace(filter, ps[i])
    ensures |ForNamespace(Some(ps[..i]), filter)| < |ForNamespace(Some(ps), filter)|
    ensures ForNamespace(Some(ps), filter)[|ForNamespace(Some(ps[..i]), filter)|] == RefOf(ps[i])
    ensures forall j :: i < j < |ps| ==> |ForNamespace(Some(ps[..i]), filter)| < |ForNamespace(Some(ps[..j]), filter)|
  {
    FilterPlacesKept(ps, NamespaceTest(filter), i);
    forall j | i < j < |ps|
      ensures |ForNamespace(Some(ps[..i]), filter)| < |ForNamespace(Some(ps[..j]), filter)|
    {
      FilterKeepsOrder(ps, NamespaceTest(filter), i, j);
    }
  }

  /** Every selected entry comes from a listed project that passes the test, and
      from the one whose position has exactly `k` selected projects before it; with
      `ForNamespaceSelects` this says the selection is the matching projects, each
      once, in listing order. */
  lemma ForNamespaceOnlySelected(ps: seq<Project>, filter: string, k: int)
    requires 0 <= k < |ForNamespace(Some(ps), filter)|
    ensures exists i :: (0 <= i < |ps| && InNamespace(filter, ps[i]) &&
                         |ForNamespace(Some(ps[..i]), filter)| == k &&
                         ForNamespace(Some(ps), filter)[k] == RefOf(ps[i]))
  {
    var i := FilterSource(ps, NamespaceTest(filter), k);
    assert |ForNamespace(Some(ps[..i]), filter)| == k;
  }

  /** The environments of one project, each tagged with the project. A failed
      listing call counts as no environments. */
  function EnvironmentsOfProject(p: ProjectRef, listed: Option<seq<Environment>>): (r: seq<EnvEntry>)
    ensures |r| == |listed.GetOr([])|
    ensures forall j :: 0 <= j < |r| ==> r[j].projectName == p.name && r[j].projectId == p.id
    ensures forall j :: 0 <= j < |r| ==> r[j].env == listed.value[j]
  {
    var envs := listed.GetOr([]);
    seq(|envs|, j requires 0 <= j < |envs| => EnvEntry(p.name, p.id, envs[j]))
  }

  /** One inner sequence per selected project, in project order. `list` stands for
      the environment-listing call of the platform. */
  function AllEnvironments(projects: seq<ProjectRef>, list: ProjectId -> Option<seq<Environment>>): (r: seq<seq<EnvEntry>>)
    ensures |r| == |projects|
    ensures forall i :: 0 <= i < |r| ==> r[i] == EnvironmentsOfProject(projects[i], list(projects[i].id))
    ensures forall i :: 0 <= i < |r| && list(projects[i].id).None? ==> r[i] == []
  {
    seq(|projects|, i requires 0 <= i < |projects| => EnvironmentsOfProject(projects[i], list(projects[i].id)))
  }
}

=== FILE: report.dfy ===
/**
 The `get` command end to end: select the namespace's projects, list their
 environments, fetch every environment's details, build and colour the rows,
 and lay out the table. The platform's answers are inputs: `listed` is the
 project listing (`None` when the call failed), `list` the environment listing
 of a project, `fetch` the per-environment call, and `humanize` the rendering of
 a deployment timestamp relative to the current time.
 */
module Report {
  import opened Wrappers
  import opened Seqs
  import opened Gitlab
  import opened Projects
  import opened Rows
  import opened Drift
  import opened Table

  /** The printed lines of one run, or `None` when a detail fetch failed, which
      ends the program before the table is printed. The run completes exactly when
      every listed environment of a selected project is fetched, and then prints
      one line (header or message) plus one per environment with a commit. */
  function Run(filter: string, listed: Option<seq<Project>>, list: ProjectId -> Option<seq<Environment>>,
               fetch: (ProjectId, EnvironmentId) -> Option<Environment>, humanize: string -> string): (out: Option<seq<Line>>)
    ensures out.Some? ==> |out.value| >= 1 && out.value[0].paint == Plain
    ensures out.Some? ==> forall i :: 1 <= i < |out.value| ==> out.value[i].paint.Painted?
    ensures var envs := AllEnvironments(ForNamespace(listed, filter), list);
      out.None? <==> (exists i, j :: 0 <= i < |envs| && 0 <= j < |envs[i]| &&
                                    fetch(envs[i][j].projectId, envs[i][j].env.id).None?)
    ensures var envs := AllEnvironments(ForNamespace(listed, filter), list);
      out.Some? ==> ResolveAll(envs, fetch).Some? && |out.value| == 1 + CommittedCount(ResolveAll(envs, fetch).value)
    ensures var envs := AllEnvironments(ForNamespace(listed, filter), list);
      out.Some? ==> (out.value == [Line(Plain, NothingToShow)] <==> CommittedCount(ResolveAll(envs, fetch).value) == 0)
  {
    var projects := ForNamespace(listed, filter);
    var envs := AllEnvironments(projects, list);
    ResolveAllFails(envs, fetch);
    match ResolveAll(envs, fetch)
    case None => None
    case Some(resolved) =>
      EnvironmentDetailsLength(resolved, humanize);
      Some(Render(EnvironmentDetails(resolved, humanize)))
  }

  /** Every environment the platform reports shows an empty commit cell: it was
      never deployed, or its deployment names no commit. */
  ghost predicate NothingCommittedFetched(fetch: (ProjectId, EnvironmentId) -> Option<Environment>)
  {
    forall p, e :: fetch(p, e).Some? ==> CommitCell(fetch(p, e).value.lastDeployment) == []
  }

  lemma {:induction false} NothingCommitted(all: seq<seq<Resolved>>)
    requires forall i, j :: 0 <= i < |all| && 0 <= j < |all[i]| ==> !HasCommit(all[i][j])
    ensures CommittedCount(all) == 0
  {
    if |all| > 0 {
      NothingCommitted(all[1..]);
      NoneKept(all[0]);
    }
  }

  lemma {:induction false} NoneKept(group: seq<Resolved>)
    requires forall j :: 0 <= j < |group| ==> !HasCommit(group[j])
    ensures Filter(group, HasCommit) == []
  {
    if |group| > 0 {
      NoneKept(group[1..]);
    }
  }

  /** When no environment shows a commit, a completed run prints only the message. */
  lemma NoCommitShowsMessage(filter: string, listed: Option<seq<Project>>, list: ProjectId -> Option<seq<Environment>>,
                             fetch: (ProjectId, EnvironmentId) -> Option<Environment>, humanize: string -> string)
    requires NothingCommittedFetched(fetch)
    ensures Run(filter, listed, list, fetch, humanize).Some? ==>
      Run(filter, listed, list, fetch, humanize).value == [Line(Plain, NothingToShow)]
  {
    var envs: seq<seq<EnvEntry>> := AllEnvironments(ForNamespace(listed, filter), list);
    var resolved := ResolveAll(envs, fetch);
    if resolved.Some? {
      var all: seq<seq<Resolved>> := resolved.value;
      forall i, j | 0 <= i < |all| && 0 <= j < |all[i]|
        ensures !HasCommit(all[i][j])
      {
        assert Some(all[i]) == ResolveGroup(envs[i], fetch);
      }
      NothingCommitted(all);
      EnvironmentDetailsLength(all, humanize);
    }
  }

  /** A failed detail fetch for any listed environment of a selected project aborts
      the run, however the other calls went. */
  lemma FailedFetchAborts(filter: string, listed: Option<seq<Project>>, list: ProjectId -> Option<seq<Environment>>,
                          fetch: (ProjectId, EnvironmentId) -> Option<Environment>, humanize: string -> string, i: nat, j: nat)
    requires i < |ForNamespace(listed, filter)|
    requires j < |list(ForNamespace(listed, filter)[i].id).GetOr([])|
    requires fetch(ForNamespace(listed, filter)[i].id, list(ForNamespace(listed, filter)[i].id).value[j].id).None?
    ensures Run(filter, listed, list, fetch, humanize) == None
  {
    var envs: seq<seq<EnvEntry>> := AllEnvironments(ForNamespace(listed, filter), list);
    assert envs[i][j].env == list(ForNamespace(listed, filter)[i].id).value[j];
    assert ResolveGroup(envs[i], fetch).None?;
  }

  /** Without any matching project the run prints only the message. */
  lemma NoProjectShowsMessage(filter: string, listed: Option<seq<Project>>, list: ProjectId -> Option<seq<Environment>>,
                              fetch: (ProjectId, EnvironmentId) -> Option<Environment>, humanize: string -> string)
    requires ForNamespace(listed, filter) == []
    ensures Run(filter, listed, list, fetch, humanize) == Some([Line(Plain, NothingToShow)])
  {
    var envs := AllEnvironments([], list);
    assert envs == [];
    EnvironmentDetailsLength([], humanize);
  }
}

=== FILE: rows.dfy ===
/**
 The third stage: fetching each environment's details and turning them into
 report rows. A row holds five cells: project, environment, deployment label,
 commit and "updated" label.
 */
module Rows {
  import opened Wrappers
  import opened Seqs
  import opened Text
  import opened Gitlab
  import opened Projects

  /** An environment as returned by the per-environment endpoint, tagged with the
      name of its project. */
  datatype Resolved = Resolved(projectName: string, env: Environment)

  datatype Row = Row(project: string, environment: string, deployment: string, commit: string, updated: string)

  /** Fetches the details of every environment of one project, in order. `fetch`
      stands for the per-environment call; a single failure aborts (`None`). */
  function ResolveGroup(entries: seq<EnvEntry>, fetch: (ProjectId, EnvironmentId) -> Option<Environment>): (r: Option<seq<Resolved>>)
    ensures r.Some? <==> forall j :: 0 <= j < |entries| ==> fetch(entries[j].projectId, entries[j].env.id).Some?
    ensures r.Some? ==> |r.value| == |entries|
    ensures r.Some? ==> forall j :: 0 <= j < |entries| ==>
      r.value[j] == Resolved(entries[j].projectName, fetch(entries[j].projectId, entries[j].env.id).value)
  {
    if |entries| == 0 then Some([])
    else
      var e := entries[0];
      match fetch(e.projectId, e.env.id)
      case None => None
      case Some(env) =>
        match ResolveGroup(entries[1..], fetch)
        case None => None
        case Some(rest) => Some([Resolved(e.projectName, env)] + rest)
  }

  /** Fetches the details of every environment of every project, keeping the
      per-project nesting; any failed call aborts the whole stage. */
  function ResolveAll(all: seq<seq<EnvEntry>>, fetch: (ProjectId, EnvironmentId) -> Option<Environment>): (r: Option<seq<seq<Resolved>>>)
    ensures r.Some? <==> forall i :: 0 <= i < |all| ==> ResolveGroup(all[i], fetch).Some?
    ensures r.Some? ==> |r.value| == |all|
    ensures r.Some? ==> forall i :: 0 <= i < |all| ==> Some(r.value[i]) == ResolveGroup(all[i], fetch)
  {
    if |all| == 0 then Some([])
    else
      match ResolveGroup(all[0], fetch)
      case None => None
      case Some(g) =>
        match ResolveAll(all[1..], fetch)
        case None => None
        case Some(rest) => Some([g] + rest)
  }

  /** The whole stage fails exactly when the detail fetch of some listed
      environment fails. */
  lemma ResolveAllFails(all: seq<seq<EnvEntry>>, fetch: (ProjectId, EnvironmentId) -> Option<Environment>)
    ensures ResolveAll(all, fetch).None? <==>
      (exists i, j :: 0 <= i < |all| && 0 <= j < |all[i]| && fetch(all[i][j].projectId, all[i][j].env.id).None?)
  {
    if ResolveAll(all, fetch).None? {
      var i :| 0 <= i < |all| && ResolveGroup(all[i], fetch).None?;
      var j :| 0 <= j < |all[i]| && fetch(all[i][j].projectId, all[i][j].env.id).None?;
    }
  }

  /** "<iid> by <username>" for a deployment, the empty string when there is none. */
  function DeploymentLabel(d: Option<Deployment>): (r: string)
    ensures r == [] <==> d.None?
  {
    match d
    case None => ""
    case Some(dep) => Decimal(dep.iid) + " by " + dep.user.username
  }

  /** Length of the longest prefix of `s` made of decimal digits. */
  function DigitRun(s: string): (k: nat)
    ensures k <= |s|
    ensures forall i :: 0 <= i < k ==> IsDigit(s[i])
    ensures k < |s| ==> !IsDigit(s[k])
  {
    if |s| == 0 || !IsDigit(s[0]) then 0 else 1 + DigitRun(s[1..])
  }

  /** Reads a deployment label back into its sequence number and username. */
  function SplitLabel(shown: string): Option<(nat, string)>
  {
    var k := DigitRun(shown);
    if 0 < k && k + 4 <= |shown| && shown[k..k + 4] == " by " then
      Some((ParseDecimal(shown[..k]), shown[k + 4..]))
    else
      None
  }

  /** The deployment label determines the deployment's number and deployer. */
  lemma DeploymentLabelRoundTrip(d: Deployment)
    ensures SplitLabel(DeploymentLabel(Some(d))) == Some((d.iid, d.user.username))
  {
    var digits := Decimal(d.iid);
    var shown := DeploymentLabel(Some(d));
    var n := |digits|;
    assert shown[..n] == digits;
    assert shown[n] == ' ';
    var k := DigitRun(shown);
    assert k == n;
    assert shown[k..k + 4] == " by ";
    assert shown[k + 4..] == d.user.username;
    DecimalRoundTrip(d.iid);
  }

  /** The commit cell: the deployed commit's short id when there is a deployment
      and the platform reports the id, the empty string otherwise. */
  function CommitCell(d: Option<Deployment>): (r: string)
    ensures d.None? ==> r == []
    ensures d.Some? && d.value.commitShortId.None? ==> r == []
    ensures d.Some? && d.value.commitShortId.Some? ==> r == d.value.commitShortId.value
  {
    match d
    case None => ""
    case Some(dep) => dep.commitShortId.GetOr("")
  }

  /** The "updated" cell. `humanize` stands for parsing the RFC 3339 timestamp and
      rendering its distance from the current time in words. */
  function UpdatedCell(d: Option<Deployment>, humanize: string -> string): (r: string)
    ensures d.None? ==> r == []
    ensures d.Some? ==> r == humanize(d.value.createdAt)
  {
    match d
    case None => ""
    case Some(dep) => humanize(dep.createdAt)
  }

  /** The five cells of one environment's row. */
  function BuildRow(res: Resolved, humanize: string -> string): (r: Row)
    ensures r.project == res.projectName && r.environment == res.env.name
    ensures r.deployment == DeploymentLabel(res.env.lastDeployment)
    ensures r.commit == CommitCell(res.env.lastDeployment)
    ensures r.updated == UpdatedCell(res.env.lastDeployment, humanize)
    ensures res.env.lastDeployment.Some? ==>
      SplitLabel(r.deployment) == Some((res.env.lastDeployment.value.iid, res.env.lastDeployment.value.user.username))
    ensures res.env.lastDeployment.None? ==> r.deployment == [] && r.commit == [] && r.updated == []
    ensures r.commit != [] <==> HasCommit(res)
  {
    var d := res.env.lastDeployment;
    var r := Row(res.projectName, res.env.name, DeploymentLabel(d), CommitCell(d), UpdatedCell(d, humanize));
    if d.Some? then DeploymentLabelRoundTrip(d.value); r else r
  }

  function RowBuilder(humanize: string -> string): Resolved -> Row
  {
    res => BuildRow(res, humanize)
  }

  /** The environment was deployed and the deployment names a non-empty commit. */
  predicate HasCommit(res: Resolved)
  {
    CommitCell(res.env.lastDeployment) != []
  }

  predicate RowHasCommit(r: Row)
  {
    r.commit != []
  }

  /** The rows of one project, in environment order, without those whose commit
      cell is empty. */
  function KeptRows(group: seq<Resolved>, humanize: string -> string): (r: seq<Row>)
    ensures |r| <= |group|
    ensures forall k :: 0 <= k < |r| ==> r[k].commit != []
  {
    Filter(Map(group, RowBuilder(humanize)), RowHasCommit)
  }

  /** The kept rows are exactly the rows of the environments that have a commit,
      in the same order. */
  lemma KeptRowsAreCommitted(group: seq<Resolved>, humanize: string -> string)
    ensures KeptRows(group, humanize) == Map(Filter(group, HasCommit), RowBuilder(humanize))
  {
    forall res
      ensures RowHasCommit(RowBuilder(humanize)(res)) == HasCommit(res)
    {
    }
    FilterMapCommute(group, RowBuilder(humanize), HasCommit, RowHasCommit);
  }

  /** Row filtering is idempotent: the kept rows survive a second pass unchanged. */
  lemma KeptRowsStable(group: seq<Resolved>, humanize: string -> string)
    ensures Filter(KeptRows(group, humanize), RowHasCommit) == KeptRows(group, humanize)
  {
    FilterIdempotent(Map(group, RowBuilder(humanize)), RowHasCommit);
  }

  /** An environment with a commit contributes its row at the position given by
      the number of committed environments before it; rows keep environment order. */
  lemma KeptRowPlacement(group: seq<Resolved>, humanize: string -> string, i: int)
    requires 0 <= i < |group| && HasCommit(group[i])
    ensures |KeptRows(group[..i], humanize)| < |KeptRows(group, humanize)|
    ensures KeptRows(group, humanize)[|KeptRows(group[..i], humanize)|] == BuildRow(group[i], humanize)
  {
    var rows := Map(group, RowBuilder(humanize));
    FilterPlacesKept(rows, RowHasCommit, i);
    assert rows[..i] == Map(group[..i], RowBuilder(humanize));
  }
}

=== FILE: scenarios.dfy ===
/** Concrete runs of the colouring, layout and namespace selection. */
module Scenarios {
  import opened Gitlab
  import opened Projects
  import opened Rows
  import opened Drift
  import opened Table

  /** Two environments of project A on the same commit: both rows green, and the
      environment column as wide as its header, which is longer than any cell. */
  lemma SameCommitIsGreen()
    ensures ColourGroup([Row("A", "staging", "7 by ann", "abc123", "1 hour ago"), Row("A", "prod", "6 by bob", "abc123", "2 days ago")])
      == [ColouredRow(Green, Row("A", "staging", "7 by ann", "abc123", "1 hour ago")),
          ColouredRow(Green, Row("A", "prod", "6 by bob", "abc123", "2 days ago"))]
    ensures ColumnWidth(ColourGroup([Row("A", "staging", "7 by ann", "abc123", "1 hour ago"), Row("A", "prod", "6 by bob", "abc123", "2 days ago")]), 1) == 11
  {
    var rows := [Row("A", "staging", "7 by ann", "abc123", "1 hour ago"), Row("A", "prod", "6 by bob", "abc123", "2 days ago")];
    var cs := Column(ColourGroup(rows), 1);
    assert cs == ["staging", "prod"];
    assert cs[1..] == ["prod"];
    assert cs[1..][1..] == [];
    assert Longest(cs[1..]) == 4;
    assert Longest(cs) == 7;
  }

  /** Two environments of project B on different commits: both rows red. */
  lemma DifferentCommitsAreBothRed()
    ensures ColourGroup([Row("B", "staging", "3 by ann", "abc123", "1 hour ago"), Row("B", "prod", "2 by bob", "def456", "3 days ago")])
      == [ColouredRow(Red, Row("B", "staging", "3 by ann", "abc123", "1 hour ago")), ColouredRow(Red, Row("B", "prod", "2 by bob", "def456", "3 days ago"))]
  {
    var rows := [Row("B", "staging", "3 by ann", "abc123", "1 hour ago"), Row("B", "prod", "2 by bob", "def456", "3 days ago")];
    DifferentCommitsAreRed(rows, 0, 1);
  }

  /** The namespace test ignores case but matches whole names only. */
  lemma PaymentsNamespace()
    ensures InNamespace("payments", Project(1, "api", "Payments"))
    ensures !InNamespace("payments", Project(2, "old-api", "payments-legacy"))
  {
    assert "Payments" == ['P'] + "ayments";
    Text.UpperIgnoresCase("Payments", "payments");
  }
}

=== FILE: seqs.dfy ===
/**
 Generic sequence operations used by the report: order-preserving filtering,
 element-wise mapping, flattening of nested sequences, and consecutive-duplicate
 removal with the semantics of Rust's `Vec::dedup`.
 */
module Seqs {

  /** Elements of `s` for which `keep` holds, in their original order. */
  function Filter<T>(s: seq<T>, keep: T -> bool): (r: seq<T>)
    ensures |r| <= |s|
    ensures forall i :: 0 <= i < |r| ==> keep(r[i])
  {
    if |s| == 0 then []
    else if keep(s[0]) then [s[0]] + Filter(s[1..], keep)
    else Filter(s[1..], keep)
  }

  /** A kept element lands in the output right after the kept elements that precede
      it in the input: its output position is the number of kept elements before it. */
  lemma FilterPlacesKept<T>(s: seq<T>, keep: T -> bool, i: int)
    requires 0 <= i < |s| && keep(s[i])
    ensures |Filter(s[..i], keep)| < |Filter(s, keep)|
    ensures Filter(s, keep)[|Filter(s[..i], keep)|] == s[i]
  {
    assert s == s[..i] + s[i..];
    FilterAppend(s[..i], s[i..], keep);
    assert s[i..][0] == s[i];
  }

  /** The converse of `FilterPlacesKept`: the element at output position `k` is the
      kept input element at some position `i` with exactly `k` kept elements
      before it, so the output holds no element twice over and nothing extra. */
  lemma {:induction false} FilterSource<T>(s: seq<T>, keep: T -> bool, k: int) returns (i: int)
    requires 0 <= k < |Filter(s, keep)|
    ensures 0 <= i < |s| && keep(s[i])
    ensures |Filter(s[..i], keep)| == k
    ensures Filter(s, keep)[k] == s[i]
  {
    var i' := 0;
    if keep(s[0]) && k == 0 {
      assert s[..0] == [];
      return 0;
    } else if keep(s[0]) {
      i' := FilterSource(s[1..], keep, k - 1);
    } else {
      i' := FilterSource(s[1..], keep, k);
    }
    i := i' + 1;
    assert s[..i] == [s[0]] + s[1..][..i'];
    FilterAppend([s[0]], s[1..][..i'], keep);
    assert s[i] == s[1..][i'];
  }

  /** Kept elements keep their relative order. */
  lemma FilterKeepsOrder<T>(s: seq<T>, keep: T -> bool, i: int, j: int)
    requires 0 <= i < j < |s| && keep(s[i])
    ensures |Filter(s[..i], keep)| < |Filter(s[..j], keep)|
  {
    assert s[..j] == s[..i] + s[i..j];
    FilterAppend(s[..i], s[i..j], keep);
    assert s[i..j][0] == s[i];
  }

  /** A test that keeps every element leaves the sequence unchanged. */
  lemma {:induction false} FilterKeepsAll<T>(s: seq<T>, keep: T -> bool)
    requires forall i :: 0 <= i < |s| ==> keep(s[i])
    ensures Filter(s, keep) == s
  {
    if |s| > 0 {
      FilterKeepsAll(s[1..], keep);
    }
  }

  /** Filtering is idempotent. */
  lemma {:induction false} FilterIdempotent<T>(s: seq<T>, keep: T -> bool)
    ensures Filter(Filter(s, keep), keep) == Filter(s, keep)
  {
    if |s| > 0 {
      FilterIdempotent(s[1..], keep);
      if keep(s[0]) {
        var r := Filter(s, keep);
        assert r[1..] == Filter(s[1..], keep);
      }
    }
  }

  /** Filtering distributes over concatenation. */
  lemma {:induction false} FilterAppend<T>(a: seq<T>, b: seq<T>, keep: T -> bool)
    ensures Filter(a + b, keep) == Filter(a, keep) + Filter(b, keep)
  {
    if |a| == 0 {
      assert a + b == b;
    } else {
      FilterAppend(a[1..], b, keep);
      assert (a + b)[1..] == a[1..] + b;
    }
  }

  /** `f` applied to every element, positions preserved. */
  function Map<T, U>(s: seq<T>, f: T -> U): (r: seq<U>)
    ensures |r| == |s|
    ensures forall i :: 0 <= i < |s| ==> r[i] == f(s[i])
  {
    seq(|s|, i requires 0 <= i < |s| => f(s[i]))
  }

  lemma MapAppend<T, U>(a: seq<T>, b: seq<T>, f: T -> U)
    ensures Map(a + b, f) == Map(a, f) + Map(b, f)
  {
    assert forall i :: 0 <= i < |a + b| ==> Map(a + b, f)[i] == (Map(a, f) + Map(b, f))[i];
  }

  /** Mapping after filtering equals filtering the mapped sequence by a test that
      agrees with the original one through `f`. */
  lemma {:induction false} FilterMapCommute<T, U>(s: seq<T>, f: T -> U, keep: T -> bool, keep': U -> bool)
    requires forall x :: keep'(f(x)) == keep(x)
    ensures Filter(Map(s, f), keep') == Map(Filter(s, keep), f)
  {
    if |s| > 0 {
      FilterMapCommute(s[1..], f, keep, keep');
      assert Map(s, f)[1..] == Map(s[1..], f);
      if keep(s[0]) {
        assert Map(Filter(s, keep), f) == [f(s[0])] + Map(Filter(s[1..], keep), f);
      }
    }
  }

  /** Sum of the lengths of the inner sequences. */
  function TotalLength<T>(ss: seq<seq<T>>): nat
  {
    if |ss| == 0 then 0 else |ss[0]| + TotalLength(ss[1..])
  }

  /** The inner sequences concatenated in order (Rust's `flat_map` collected). */
  function Flatten<T>(ss: seq<seq<T>>): (r: seq<T>)
    ensures |r| == TotalLength(ss)
  {
    if |ss| == 0 then [] else ss[0] + Flatten(ss[1..])
  }

  /** A property of every inner element is a property of every flattened element. */
  lemma {:induction false} FlattenAll<T>(ss: seq<seq<T>>, p: T -> bool)
    requires forall i, j :: 0 <= i < |ss| && 0 <= j < |ss[i]| ==> p(ss[i][j])
    ensures forall k :: 0 <= k < |Flatten(ss)| ==> p(Flatten(ss)[k])
  {
    if |ss| > 0 {
      FlattenAll(ss[1..], p);
      assert forall k :: |ss[0]| <= k < |Flatten(ss)| ==> Flatten(ss)[k] == Flatten(ss[1..])[k - |ss[0]|];
    }
  }

  lemma {:induction false} FlattenAppend<T>(a: seq<seq<T>>, b: seq<seq<T>>)
    ensures Flatten(a + b) == Flatten(a) + Flatten(b)
  {
    if |a| == 0 {
      assert a + b == b;
    } else {
      FlattenAppend(a[1..], b);
      assert (a + b)[1..] == a[1..] + b;
    }
  }

  /** Every element equals the first one (vacuously true of the empty sequence). */
  predicate AllEqual<T(==)>(s: seq<T>)
  {
    forall i :: 0 <= i < |s| ==> s[i] == s[0]
  }

  /** Rust's `Vec::dedup`: every run of consecutive equal elements collapses to one
      element; non-adjacent repetitions are kept. */
  function Dedup<T(==)>(s: seq<T>): (r: seq<T>)
    ensures |r| <= |s|
    ensures |r| == 0 <==> |s| == 0
    ensures |s| > 0 ==> r[0] == s[0]
    ensures forall i :: 0 <= i < |r| - 1 ==> r[i] != r[i + 1]
  {
    if |s| <= 1 then s
    else if s[0] == s[1] then Dedup(s[1..])
    else [s[0]] + Dedup(s[1..])
  }

  /** `Dedup` works run by run: where two sequences meet on different elements it
      handles each separately, so equal elements that are not neighbours both stay. */
  lemma {:induction false} DedupAppend<T>(a: seq<T>, b: seq<T>)
    requires |a| > 0 && |b| > 0 && a[|a| - 1] != b[0]
    ensures Dedup(a + b) == Dedup(a) + Dedup(b)
  {
    if |a| == 1 {
      assert (a + b)[1..] == b;
    } else {
      DedupAppend(a[1..], b);
      assert (a + b)[1..] == a[1..] + b;
    }
  }

  /** `Dedup` leaves exactly one element iff the input is non-empty and uniform. */
  lemma {:induction false} DedupSingleton<T>(s: seq<T>)
    ensures |Dedup(s)| == 1 <==> |s| > 0 && AllEqual(s)
  {
    if |s| > 1 {
      DedupSingleton(s[1..]);
      if s[0] == s[1] {
        if AllEqual(s[1..]) {
          assert forall i :: 1 <= i < |s| ==> s[i] == s[1..][i - 1];
        }
        if AllEqual(s) {
          assert forall i :: 0 <= i < |s| - 1 ==> s[1..][i] == s[0];
        }
      } else {
        assert !AllEqual(s) by { assert s[1] != s[0]; }
      }
    }
  }

  /** The same condition stated through the set of distinct elements: `Dedup`
      leaves one element iff the input holds exactly one distinct value. */
  lemma DedupSingletonIffOneDistinct<T>(s: seq<T>)
    ensures |Dedup(s)| == 1 <==> |set x | x in s| == 1
  {
    DedupSingleton(s);
    var d := set x | x in s;
    if |s| > 0 && AllEqual(s) {
      assert d == {s[0]};
    }
    if |d| == 1 {
      var y :| y in d;
      assert |d - {y}| == 0;
      assert forall i :: 0 <= i < |s| ==> s[i] == y by {
        forall i | 0 <= i < |s| ensures s[i] == y {
          assert s[i] in d;
        }
      }
    }
  }
}

=== FILE: table.dfy ===
/**
 The table printed at the end of the run: one header line and one line per
 coloured row, five left-aligned space-padded columns separated by two spaces,
 each column as wide as its longest cell but never narrower than its header.
 */
module Table {
  import opened Text
  import opened Rows
  import opened Drift

  const Headers: seq<string> := ["PROJECT", "ENVIRONMENT", "DEPLOYMENT", "COMMIT", "UPDATED"]
  /** Minimum column widths, as written in the program. */
  const Floors: seq<nat> := [7, 11, 10, 6, 7]
  const Separator: string := "  "
  const NothingToShow: string := "There is nothing to show"

  /** Header and message lines are printed plain; row lines in their group's colour. */
  datatype Paint = Plain | Painted(colour: Colour)

  datatype Line = Line(paint: Paint, text: string)

  function Cells(r: Row): (cs: seq<string>)
    ensures |cs| == 5
  {
    [r.project, r.environment, r.deployment, r.commit, r.updated]
  }

  /** The minimum widths are exactly the header lengths, so headers are never cut. */
  lemma FloorsAreHeaderLengths()
    ensures |Headers| == |Floors| == 5
    ensures forall k :: 0 <= k < 5 ==> |Headers[k]| == Floors[k]
  {
  }

  /** Length of the longest string, 0 for none. */
  function Longest(cells: seq<string>): (m: nat)
    ensures forall i :: 0 <= i < |cells| ==> |cells[i]| <= m
  {
    if |cells| == 0 then 0 else Max(|cells[0]|, Longest(cells[1..]))
  }

  /** The longest length is the length of some string (or 0 when there is none). */
  lemma {:induction false} LongestAttained(cells: seq<string>) returns (i: nat)
    requires |cells| > 0
    ensures i < |cells| && |cells[i]| == Longest(cells)
  {
    if |cells| == 1 || |cells[0]| >= Longest(cells[1..]) {
      i := 0;
    } else {
      var j := LongestAttained(cells[1..]);
      i := j + 1;
    }
  }

  function Column(rows: seq<ColouredRow>, k: nat): (cs: seq<string>)
    requires k < 5
    ensures |cs| == |rows|
    ensures forall i :: 0 <= i < |rows| ==> cs[i] == Cells(rows[i].row)[k]
  {
    seq(|rows|, i requires 0 <= i < |rows| => Cells(rows[i].row)[k])
  }

  /** Width of column `k`: the smallest width that holds the header and every cell
      of the column. The program only computes it for a non-empty table (taking
      the maximum of no cells would fail). */
  function ColumnWidth(rows: seq<ColouredRow>, k: nat): (w: nat)
    requires |rows| > 0 && k < 5
    ensures w >= Floors[k]
    ensures forall i :: 0 <= i < |rows| ==> |Cells(rows[i].row)[k]| <= w
  {
    Max(Longest(Column(rows, k)), Floors[k])
  }

  /** The width is no larger than needed: it is the header's length or the length
      of some cell of the column. */
  lemma ColumnWidthIsTight(rows: seq<ColouredRow>, k: nat)
    requires |rows| > 0 && k < 5
    ensures ColumnWidth(rows, k) == Floors[k] || exists i :: 0 <= i < |rows| && |Cells(rows[i].row)[k]| == ColumnWidth(rows, k)
  {
    var cs := Column(rows, k);
    var i := LongestAttained(cs);
    assert |Cells(rows[i].row)[k]| == Longest(cs);
  }

  /** The five column widths of a non-empty table: each holds its header and every
      cell of its column (`ColumnWidthIsTight` shows none is wider than needed). */
  function Widths(rows: seq<ColouredRow>): (ws: seq<nat>)
    requires |rows| > 0
    ensures |ws| == 5
    ensures forall k :: 0 <= k < 5 ==> ws[k] == ColumnWidth(rows, k)
    ensures forall k :: 0 <= k < 5 ==> ws[k] >= |Headers[k]|
    ensures forall i, k :: 0 <= i < |rows| && 0 <= k < 5 ==> |Cells(rows[i].row)[k]| <= ws[k]
  {
    FloorsAreHeaderLengths();
    seq(5, k requires 0 <= k < 5 => ColumnWidth(rows, k))
  }

  function Sum(ws: seq<nat>): nat
  {
    if |ws| == 0 then 0 else ws[0] + Sum(ws[1..])
  }

  /** Every cell fits in its column's width. */
  predicate Fits(cells: seq<string>, ws: seq<nat>)
    requires |cells| == |ws|
  {
    forall k :: 0 <= k < |ws| ==> |cells[k]| <= ws[k]
  }

  /** Each field is exactly as long as its column's width. */
  predicate HasWidths(fields: seq<string>, ws: seq<nat>)
  {
    |fields| == |ws| && forall k :: 0 <= k < |ws| ==> |fields[k]| == ws[k]
  }

  /** The fields joined by the separator. */
  function Join(fields: seq<string>): string
    requires |fields| > 0
  {
    if |fields| == 1 then fields[0] else fields[0] + Separator + Join(fields[1..])
  }

  function Padded(cells: seq<string>, ws: seq<nat>): (fields: seq<string>)
    requires |cells| == |ws|
    ensures |fields| == |ws|
    ensures forall k :: 0 <= k < |ws| ==> fields[k] == Pad(cells[k], ws[k])
  {
    seq(|ws|, k requires 0 <= k < |ws| => Pad(cells[k], ws[k]))
  }

  /** One printed line: the cells padded to their widths, joined by the separator. */
  function FormatLine(cells: seq<string>, ws: seq<nat>): (line: string)
    requires |cells| == |ws| > 0
    ensures Fits(cells, ws) ==> |line| == Sum(ws) + 2 * (|ws| - 1)
  {
    if Fits(cells, ws) then
      PaddedWidths(cells, ws);
      JoinLength(Padded(cells, ws), ws);
      Join(Padded(cells, ws))
    else Join(Padded(cells, ws))
  }

  /** Where column `k` starts in a line. */
  function ColumnStart(ws: seq<nat>, k: nat): nat
    requires k <= |ws|
  {
    if k == 0 then 0 else ws[0] + 2 + ColumnStart(ws[1..], k - 1)
  }

  /** Column `k` starts after the widths of the columns before it and one separator
      after each of them. */
  lemma {:induction false} ColumnStartSum(ws: seq<nat>, k: nat)
    requires k <= |ws|
    ensures ColumnStart(ws, k) == Sum(ws[..k]) + 2 * k
  {
    if k == 0 {
      assert ws[..0] == [];
    } else {
      ColumnStartSum(ws[1..], k - 1);
      assert ws[..k][1..] == ws[1..][..k - 1];
    }
  }

  lemma PaddedWidths(cells: seq<string>, ws: seq<nat>)
    requires |cells| == |ws| && Fits(cells, ws)
    ensures HasWidths(Padded(cells, ws), ws)
  {
  }

  lemma HasWidthsTail(fields: seq<string>, ws: seq<nat>)
    requires HasWidths(fields, ws) && |ws| > 0
    ensures HasWidths(fields[1..], ws[1..])
  {
    assert forall j :: 0 <= j < |ws| - 1 ==> fields[1..][j] == fields[j + 1] && ws[1..][j] == ws[j + 1];
  }

  lemma {:induction false} JoinLength(fields: seq<string>, ws: seq<nat>)
    requires |fields| > 0 && HasWidths(fields, ws)
    ensures |Join(fields)| == Sum(ws) + 2 * (|ws| - 1)
    decreases |ws|
  {
    if |ws| > 1 {
      HasWidthsTail(fields, ws);
      JoinLength(fields[1..], ws[1..]);
    } else {
      assert ws[1..] == [];
    }
  }

  /** A joined line is its first field, the separator, then the rest joined. */
  lemma JoinUnfold(fields: seq<string>)
    requires |fields| > 1
    ensures Join(fields)[..|fields[0]|] == fields[0]
    ensures Join(fields)[|fields[0]|..|fields[0]| + 2] == Separator
    ensures Join(fields)[|fields[0]| + 2..] == Join(fields[1..])
  {
  }

  /** Field `k` of a joined line starts at column `k`'s start. */
  lemma {:induction false} JoinField(fields: seq<string>, ws: seq<nat>, k: nat)
    requires |fields| > 0 && HasWidths(fields, ws) && k < |ws|
    ensures ColumnStart(ws, k) + ws[k] <= |Join(fields)|
    ensures Join(fields)[ColumnStart(ws, k)..ColumnStart(ws, k) + ws[k]] == fields[k]
    decreases k
  {
    if |ws| == 1 {
    } else if k == 0 {
      JoinUnfold(fields);
    } else {
      HasWidthsTail(fields, ws);
      JoinUnfold(fields);
      JoinField(fields[1..], ws[1..], k - 1);
      JoinLength(fields[1..], ws[1..]);
      var line := Join(fields);
      var off := ws[0] + 2;
      var start := ColumnStart(ws[1..], k - 1);
      Suffix(line, off, off + start, off + start + ws[k]);
    }
  }

  /** Between field `k` and field `k + 1` of a joined line stands the separator. */
  lemma {:induction false} JoinSeparator(fields: seq<string>, ws: seq<nat>, k: nat)
    requires |fields| > 0 && HasWidths(fields, ws) && k + 1 < |ws|
    ensures ColumnStart(ws, k + 1) == ColumnStart(ws, k) + ws[k] + 2 <= |Join(fields)|
    ensures Join(fields)[ColumnStart(ws, k) + ws[k]..ColumnStart(ws, k + 1)] == Separator
    decreases k
  {
    JoinUnfold(fields);
    HasWidthsTail(fields, ws);
    JoinLength(fields[1..], ws[1..]);
    if k > 0 {
      JoinSeparator(fields[1..], ws[1..], k - 1);
      var line := Join(fields);
      var off := ws[0] + 2;
      var start := ColumnStart(ws[1..], k - 1);
      Suffix(line, off, off + start + ws[k], off + start + ws[k] + 2);
    }
  }

  /** A slice of `s` read inside the suffix that starts at `off`. */
  lemma Suffix(s: string, off: nat, a: nat, b: nat)
    requires off <= a <= b <= |s|
    ensures s[a..b] == s[off..][a - off..b - off]
  {
  }

  /** Column `k` of a line holds its cell left-aligned, followed by spaces up to
      the column's width, and then the separator unless it is the last column:
      every cell can be read back from the line. */
  lemma FormatLineColumn(cells: seq<string>, ws: seq<nat>, k: nat)
    requires |cells| == |ws| > 0 && Fits(cells, ws) && k < |ws|
    ensures ColumnStart(ws, k) + ws[k] <= |FormatLine(cells, ws)|
    ensures FormatLine(cells, ws)[ColumnStart(ws, k)..ColumnStart(ws, k) + |cells[k]|] == cells[k]
    ensures forall i :: ColumnStart(ws, k) + |cells[k]| <= i < ColumnStart(ws, k) + ws[k] ==> FormatLine(cells, ws)[i] == ' '
    ensures k + 1 < |ws| ==> ColumnStart(ws, k + 1) == ColumnStart(ws, k) + ws[k] + 2 <= |FormatLine(cells, ws)|
    ensures k + 1 < |ws| ==> FormatLine(cells, ws)[ColumnStart(ws, k) + ws[k]..ColumnStart(ws, k + 1)] == Separator
  {
    var fields := Padded(cells, ws);
    PaddedWidths(cells, ws);
    JoinField(fields, ws, k);
    if k + 1 < |ws| {
      JoinSeparator(fields, ws, k);
    }
    var line := Join(fields);
    var p := ColumnStart(ws, k);
    var field := fields[k];
    assert line[p..p + |cells[k]|] == field[..|cells[k]|];
    forall i | p + |cells[k]| <= i < p + ws[k]
      ensures line[i] == ' '
    {
      assert line[i] == field[i - p];
    }
  }

  lemma HeadersFit(results: seq<ColouredRow>)
    requires |results| > 0
    ensures Fits(Headers, Widths(results))
  {
    FloorsAreHeaderLengths();
  }

  lemma CellsFit(results: seq<ColouredRow>)
    requires |results| > 0
    ensures forall i :: 0 <= i < |results| ==> Fits(Cells(results[i].row), Widths(results))
  {
    var ws := Widths(results);
    forall i, k | 0 <= i < |results| && 0 <= k < 5
      ensures |Cells(results[i].row)[k]| <= ws[k]
    {
      assert ws[k] == ColumnWidth(results, k);
    }
  }

  function RowLine(r: ColouredRow, ws: seq<nat>): Line
    requires |ws| == 5
  {
    Line(Painted(r.colour), FormatLine(Cells(r.row), ws))
  }

  /** The printed output for the report's rows: the message alone when there are
      none; otherwise the header line followed by one line per row, in order. */
  function Render(results: seq<ColouredRow>): (lines: seq<Line>)
    ensures |results| == 0 ==> lines == [Line(Plain, NothingToShow)]
    ensures |results| > 0 ==> |lines| == |results| + 1 && lines[0].paint == Plain
    ensures |results| > 0 ==> forall i :: 0 <= i < |results| ==> lines[i + 1].paint == Painted(results[i].colour)
    ensures |results| > 0 ==> forall i :: 0 <= i < |lines| ==> |lines[i].text| == Sum(Widths(results)) + 8
  {
    if |results| == 0 then [Line(Plain, NothingToShow)]
    else
      var ws := Widths(results);
      HeadersFit(results);
      CellsFit(results);
      [Line(Plain, FormatLine(Headers, ws))]
      + seq(|results|, i requires 0 <= i < |results| => RowLine(results[i], ws))
  }

  /** The text of each printed line of a non-empty table. */
  lemma RenderText(results: seq<ColouredRow>, i: nat)
    requires i < |results|
    ensures Render(results)[0].text == FormatLine(Headers, Widths(results))
    ensures Render(results)[i + 1].text == FormatLine(Cells(results[i].row), Widths(results))
  {
  }

  /** In the header line each header sits left-aligned at its column's start. */
  lemma RenderHeader(results: seq<ColouredRow>, k: nat)
    requires |results| > 0 && k < 5
    ensures ColumnStart(Widths(results), k) + |Headers[k]| <= |Render(results)[0].text|
    ensures Render(results)[0].text[ColumnStart(Widths(results), k)..ColumnStart(Widths(results), k) + |Headers[k]|] == Headers[k]
  {
    RenderText(results, 0);
    HeadersFit(results);
    FormatLineColumn(Headers, Widths(results), k);
  }

  /** In the line of row `i` each cell sits left-aligned at its column's start,
      exactly below its header. */
  lemma RenderRow(results: seq<ColouredRow>, i: nat, k: nat)
    requires i < |results| && k < 5
    ensures ColumnStart(Widths(results), k) + |Cells(results[i].row)[k]| <= |Render(results)[i + 1].text|
    ensures Render(results)[i + 1].text[ColumnStart(Widths(results), k)..ColumnStart(Widths(results), k) + |Cells(results[i].row)[k]|]
      == Cells(results[i].row)[k]
  {
    RenderText(results, i);
    CellsFit(results);
    FormatLineColumn(Cells(results[i].row), Widths(results), k);
  }
}

=== FILE: text.dfy ===
/**
 Character-level helpers for the report's text: ASCII upper-casing (Rust's
 `str::to_uppercase` restricted to ASCII), decimal rendering of unsigned
 integers (`u64::to_string`) and left-aligned space padding (the `{:width$}`
 format specifier applied to a string).
 */
module Text {

  predicate IsDigit(c: char)
  {
    '0' <= c <= '9'
  }

  predicate IsLower(c: char)
  {
    'a' <= c <= 'z'
  }

  function UpperChar(c: char): char
  {
    if IsLower(c) then (c as int - 32) as char else c
  }

  /** Upper-cases every ASCII letter and leaves every other character alone. */
  function Upper(s: string): (r: string)
    ensures |r| == |s|
    ensures forall i :: 0 <= i < |s| ==> !IsLower(r[i])
    ensures forall i :: 0 <= i < |s| && !IsLower(s[i]) ==> r[i] == s[i]
  {
    seq(|s|, i requires 0 <= i < |s| => UpperChar(s[i]))
  }

  /** Two strings of one length that agree at every position up to the case of an
      ASCII letter. */
  predicate SameUpToCase(a: string, b: string)
  {
    |a| == |b| &&
    forall i :: 0 <= i < |a| ==> a[i] == b[i] || UpperChar(a[i]) == b[i] || a[i] == UpperChar(b[i])
  }

  /** The comparison is exactly case-insensitive equality: upper-cased strings are
      equal iff the strings differ only in the case of ASCII letters. */
  lemma UpperIgnoresCase(a: string, b: string)
    ensures Upper(a) == Upper(b) <==> SameUpToCase(a, b)
  {
    if Upper(a) == Upper(b) {
      assert forall i :: 0 <= i < |a| ==> UpperChar(a[i]) == Upper(a)[i];
    }
    if SameUpToCase(a, b) {
      assert forall i :: 0 <= i < |a| ==> Upper(a)[i] == Upper(b)[i];
    }
  }

  function DigitChar(d: nat): (c: char)
    requires d < 10
    ensures IsDigit(c)
  {
    ('0' as int + d) as char
  }

  function DigitValue(c: char): (d: nat)
    requires IsDigit(c)
    ensures d < 10
    ensures DigitChar(d) == c
  {
    c as int - '0' as int
  }

  /** Decimal notation of `n`, most significant digit first, without leading zeros. */
  function Decimal(n: nat): (s: string)
    ensures |s| > 0
    ensures forall i :: 0 <= i < |s| ==> IsDigit(s[i])
    ensures s[0] == '0' ==> n == 0
    decreases n
  {
    if n < 10 then [DigitChar(n)] else Decimal(n / 10) + [DigitChar(n % 10)]
  }

  /** Value of a string of decimal digits; the inverse of `Decimal`. */
  function ParseDecimal(s: string): nat
    requires forall i :: 0 <= i < |s| ==> IsDigit(s[i])
  {
    if |s| == 0 then 0 else ParseDecimal(s[..|s| - 1]) * 10 + DigitValue(s[|s| - 1])
  }

  lemma {:induction false} DecimalRoundTrip(n: nat)
    ensures ParseDecimal(Decimal(n)) == n
    decreases n
  {
    var s := Decimal(n);
    if n >= 10 {
      DecimalRoundTrip(n / 10);
      assert s[..|s| - 1] == Decimal(n / 10);
      assert DigitValue(DigitChar(n % 10)) == n % 10 by {
        assert DigitChar(DigitValue(DigitChar(n % 10))) == DigitChar(n % 10);
      }
    } else {
      assert s[..0] == [];
      assert DigitValue(DigitChar(n)) == n by {
        assert DigitChar(DigitValue(DigitChar(n))) == DigitChar(n);
      }
    }
  }

  /** Distinct numbers have distinct decimal notations. */
  lemma DecimalInjective(m: nat, n: nat)
    requires Decimal(m) == Decimal(n)
    ensures m == n
  {
    DecimalRoundTrip(m);
    DecimalRoundTrip(n);
  }

  function Spaces(n: nat): (r: string)
    ensures |r| == n
    ensures forall i :: 0 <= i < n ==> r[i] == ' '
  {
    seq(n, _ => ' ')
  }

  function Max(a: int, b: int): int
  {
    if a < b then b else a
  }

  /** `s` left-aligned in a field of `width` characters, filled with spaces on the
      right; a string already at least `width` long is printed whole, never cut. */
  function Pad(s: string, width: nat): (r: string)
    ensures |r| == Max(|s|, width)
    ensures r[..|s|] == s
    ensures forall i :: |s| <= i < |r| ==> r[i] == ' '
  {
    if |s| < width then s + Spaces(width - |s|) else s
  }
}

=== FILE: wrappers.dfy ===
/** Optional values: the model's stand-in for Rust's `Option<T>`. */
module Wrappers {

  datatype Option<+T> = None | Some(value: T) {

    /** The carried value, or `default` when there is none (Rust's `unwrap_or` / `unwrap_or_default`). */
    function GetOr(default: T): (r: T)
      ensures Some? ==> r == value
      ensures None? ==> r == default
    {
      match this
      case Some(v) => v
      case None => default
    }
  }
}
